=== FILE: README.md ===
# LokGeet intake core in Dafny

LokGeet is a single-page Streamlit tool for collecting folk songs. An operator uploads a recording. A local speech recogniser (faster-whisper) transcribes it when the library is installed. An optional library (indic-transliteration) romanizes the transcript. The operator then corrects the text, fills in metadata, confirms consent, and the record is appended to a JSON collection that can be exported.

This project models the part of `app/app.py` that holds state and makes decisions:

- **Entry store** (`store.dfy`, module `Store`). `load_db`, `save_entry` and the export handler. The two JSON files are values of `StoreFile`: never written, a list, or text that does not decode to a list. A list element is either a record of the shape this program writes or some other JSON value, which the store carries along unchanged. The class `EntryStore` holds both files and updates them in place. `save_entry` is a read-modify-write append. Export copies the collection and reports how many entries it wrote.
- **Recogniser adapter** (`asr.dfy`, module `Asr`). The class `AsrProvider` holds the import flag `WHISPER_AVAILABLE` and the global `MODEL`. `load_model` is a one-shot cache: the first call loads a model and every later call returns it, whatever size is asked for. Streamlit reruns the script in a fresh namespace on every interaction, so as written `MODEL` lasts one script run, and each "Process audio" click loads a new model (see "Findings"). `AsrProvider` keeps the cache for the life of the server process, as intended. `transcribe_with_whisper` returns an explicit "unavailable" result when the library is absent.
- **Romanization** (`transliteration.dfy`, module `Transliteration`). The language-code-to-script table with its Devanagari default, and `romanize`. The library's `transliterate` is a foreign function held by the "available" capability.
- **Intake form** (`intake.dfy`, module `Intake`):
  - the values the text boxes start with;
  - the blank-transcript guard in front of romanization;
  - the record built on save;
  - the consent gate in front of `save_entry`;
  - one whole pass from "Process audio" to the save button.
- **Script reruns** (`rerun.dfy`, module `Rerun`). The page as a sequence of Streamlit runs, one per interaction. This is where the save handler turns out to be unreachable as the page is laid out; see "Findings".
- **String helpers** (`text.dfy`, module `Text`). Python's `str.strip()`, the `suffix` of an uploaded file name, and joining a directory with a file name.

`wrappers.dfy` holds `Option` and `Result`.

## Model

| member | source | states |
|---|---|---|
| `Store.Load` | app/app.py:207-210 | A store that was never written loads as the empty collection, not an error. A stored list loads as itself, elements of other shapes included. A file that does not decode to a list is an error. |
| `Store.AsRecordsHoldEntries` | app/app.py:212-215 | Saving entries in turn appends one list element per entry, each holding that entry, in the same order. |
| `Store.AfterSave` | app/app.py:212-215 | After a save, the collection reads back as the old collection, elements of other shapes included, with the entry appended. When the old file cannot be read, nothing is written. |
| `Store.SaveAppendsAtEnd` | app/app.py:212-215 | One save grows the collection by exactly one. Every earlier element keeps its value and position, and the new entry is last. |
| `Store.SavesKeepOrder` | app/app.py:212-215 | Successive saves leave the old collection followed by the saved entries, in the order they were saved. |
| `Store.NeverWrittenHoldsSaves` | app/app.py:207-215 | A store that was never written holds exactly the entries saved since, in order. |
| `Store.UnreadableNeverOverwritten` | app/app.py:209-215 | A store that does not decode to a list is left unchanged by any number of save attempts, because the failed load stops each one before the write. |
| `Store.EntryStore.constructor` | app/app.py:37-40 | The backing file and the export file are `data.json` and `export.json` in the script's directory. Both start with the contents found on disk. |
| `Store.EntryStore.SaveEntry` | app/app.py:212-215 | The backing file becomes `AfterSave` of the old file. The call succeeds exactly when the old file could be read, and then the collection is the old one plus `e`. |
| `Store.EntryStore.ExportAll` | app/app.py:321-325 | When the store reads, the export file is written as a list holding exactly the current collection, even when that is empty, and the reported count is its length. Otherwise nothing is written and the error is reported. |
| `Asr.NewWhisperModel` | app/app.py:188 | A model is built with the requested size, on the CPU, with int8 compute. |
| `Asr.FromTranscription` | app/app.py:195-197 | A successful recognition carries no error. Its transcript and language are the recogniser's. |
| `Asr.LoadModelStep` | app/app.py:182-189 | Without the library: `None`, cache untouched. With it: the cached model if there is one, else a fresh model of the requested size, which becomes the cache. |
| `Asr.UnavailableNeverLoads` | app/app.py:184-185 | Without the library, every call in any run of calls returns `None`. |
| `Asr.CachedModelReused` | app/app.py:186-189 | Once a model is cached, every later call with that cache returns that same model, whatever size is requested. |
| `Asr.FirstLoadWins` | app/app.py:182-189 | From an empty cache, every call sharing that cache returns the model loaded by the first call, with the first call's size. |
| `Asr.Loads` | app/app.py:186-188 | Successive calls build at most one model per call. |
| `Asr.CachedNeverReloads` | app/app.py:186-189 | With a model cached, no later call builds another. |
| `Asr.ProcessCacheLoadsOnce` | app/app.py:182-189 | Intended: with one cache for the whole process, any non-empty run of calls builds exactly one model. |
| `Asr.ClickResultsAsWritten` | app/app.py:182-189 | As written, successive clicks each return a result of a fresh script run, one result per click. |
| `Asr.LoadsAsWritten` | app/app.py:182-189 | As written, successive clicks build at most one model each. |
| `Asr.EveryClickReloads` | app/app.py:41 | As written, with the library present, every "Process audio" click builds a new model, of the size selected at that click. Nothing is reused across clicks. |
| `Asr.TwoClicksLoadTwice` | app/app.py:182-189 | Two clicks with size "small" build two models as written, and one with a process-wide cache. |
| `Asr.AsrProvider.constructor` | app/app.py:20-25 | The import flag is given, and no model is loaded yet (`MODEL = None`, line 41). As written this happens at the start of every script run; the class keeps what follows for the life of the server process, as intended. |
| `Asr.AsrProvider.LoadModel` | app/app.py:182-189 | Returns what `LoadModelStep` gives and stores its cache. A loaded model is never replaced. |
| `Asr.AsrProvider.TranscribeWithWhisper` | app/app.py:191-197 | The result carries an error exactly when the library is absent, and is then the fixed "faster-whisper not available" result. Otherwise it is what the cached model reports for the file. |
| `Transliteration.SchemeFor` | app/app.py:202-204 | `hi` and `mr` map to Devanagari, `bn` to Bengali, `ta` to Tamil and `te` to Telugu. Every other code maps to Devanagari. The source scheme is never ITRANS. |
| `Transliteration.Romanize` | app/app.py:199-205 | Without the library the result is `""`. With it, the library transliterates the text from the code's scheme to ITRANS. |
| `Transliteration.SameSchemeSameRomanization` | app/app.py:203-205 | Two codes with the same scheme give the same romanization. |
| `Transliteration.UnknownCodeReadAsHindi` | app/app.py:204 | A code outside the table romanizes exactly as `hi` does. |
| `Text.StripLeft` | app/app.py:281 | Drops exactly the leading whitespace (Python's whitespace set): the result is a suffix of the input, and what was dropped is all whitespace. |
| `Text.StripRight` | app/app.py:281 | Drops exactly the trailing whitespace: the result is a prefix of the input, and what was dropped is all whitespace. |
| `Text.Strip` | app/app.py:281 | The stripped text is empty exactly when the input is blank. A non-empty result starts and ends with a non-whitespace character. |
| `Text.RFind` | app/app.py:259 | Returns the index of the last occurrence of the character, or -1 when it does not occur. |
| `Text.Suffix` | app/app.py:259 | A non-empty suffix is a proper tail of the name of length at least two. It starts with a dot and contains no other dot. |
| `Text.SuffixPresentIff` | app/app.py:259 | The suffix is non-empty exactly when the last dot is neither the first nor the last character of the name. |
| `Text.SuffixExamples` | app/app.py:234 | `song1.wav` gives `.wav` and `field.take2.m4a` gives `.m4a`. `.ogg`, `lullaby` and `lullaby.` give no suffix. |
| `Text.JoinPath` | app/app.py:261 | The joined path ends with the file name. For a relative, non-empty name and a non-empty directory, it starts with the directory and has a separator just before the name. |
| `Intake.InitialTranscript` | app/app.py:268-273 | The transcript box starts empty when recognition failed, and with the recognised text otherwise. |
| `Intake.DetectedLanguage` | app/app.py:279 | The recogniser's language is used when it is non-empty. Otherwise the manual box's value is used, which starts as `hi`. |
| `Intake.InitialTransliteration` | app/app.py:280-282 | A blank transcript gives `""`. Any other transcript gives `romanize` of it, which is `""` without the library. |
| `Intake.UploadDir` | app/app.py:38 | The upload directory ends with `uploads`. For a non-empty base directory, it starts with the base directory followed by a separator. |
| `Intake.MakeDraft` | app/app.py:268-284 | An untouched transcript box holds the recognised text, or is empty when recognition failed. The language is the recogniser's when non-empty, else the manual box's value. An untouched transliteration box holds `romanize` of the final transcript in that language when the transcript is non-blank, and `""` when it is blank. Whatever the operator types into a box is the value used, and an untouched translation is empty. |
| `Intake.EditedTranscriptIsRomanized` | app/app.py:272-282 | A non-blank transcript the operator typed is romanized, read in the script of the language in use, and kept when the transliteration box is left alone. |
| `Intake.RecognisedTextKept` | app/app.py:272-284 | When recognition succeeds and the operator keeps the prefilled boxes, the transcript is the recognised text. The language is the recognised one unless it is empty, in which case the manual box's value is used. The transliteration is the library's rendering of a non-blank transcript in that language's script, and `""` otherwise. The translation is empty. |
| `Intake.ManualTranscriptIsRomanized` | app/app.py:268-282 | With recognition unavailable and the library present, a non-blank typed transcript is romanized in the script of the manual language box, which starts as `hi`. |
| `Intake.BuildEntry` | app/app.py:301-314 | The saved record takes the timestamp as both `id` and `uploaded_at`, and the upload's path as `audio_path`. Every metadata field, and the transcript, transliteration box, translation and language, is the form's final value. |
| `Intake.SavedPath` | app/app.py:259-261 | The upload path ends with the timestamp followed by the uploaded name's suffix. It starts with the upload directory followed by a separator. |
| `Intake.Decide` | app/app.py:297-300 | The submission is persisted exactly when it is submitted with consent. Consent is reported as required exactly when it is submitted without consent. |
| `Intake.SubmitEffect` | app/app.py:297-315 | Without consent or without a submission, the backing file is unchanged. With both, the collection gains the entry at the end. An unreadable file is never changed. |
| `Intake.ConsentedSubmissionAppendsOne` | app/app.py:300-315 | A consented save adds exactly one record, at the end, and earlier records stay as they were. In the new record, `id` and `uploaded_at` are both the timestamp. `audio_path` is the upload directory joined with the timestamp plus the suffix. The metadata and the edited transcript, transliteration, translation and language are the form's final values. |
| `Intake.UnavailableAsrFallsBackToOperator` | app/app.py:268-279 | When recognition is unavailable, the transcript is whatever the operator types into an empty box, and the language is the manual box's value. |
| `Intake.ManualTranscriptScenario` | app/app.py:268-284 | Recognition failed, the operator types "sample lyrics" and no transliteration library is present. The transcript is "sample lyrics", the transliteration and translation are empty, and the language is `hi`. |
| `Intake.RecognisedHindiScenario` | app/app.py:272-283 | Recognition reports "राम राम" in Hindi and the library renders it "rAma rAma". The boxes then hold that transcript, language `hi` and transliteration "rAma rAma". |
| `Intake.Submit` | app/app.py:296-316 | The backing file becomes `SubmitEffect` of the old one. The outcome is idle when nothing was submitted, and a consent error when consent is missing. Otherwise it is "saved" exactly when the store could be read. |
| `Intake.ProcessUpload` | app/app.py:256-316 | Recognition runs on the upload's saved path through the model cache. Its result is the fixed "unavailable" result without the library, and otherwise what the cached model reports for that path. The backing file afterwards is `SubmitEffect` of the record built from the upload and the edited boxes, and is unchanged unless the form is submitted with consent. The outcome is idle without a submission and a consent error without consent. With both it is "saved" with that record exactly when the store could be read, and the store error otherwise. |
| `Rerun.SaveReachedAsWritten` | app/app.py:254-256 | As the page is laid out, no run reaches the save handler: `process` and the form's submit button are never both true in one run. |
| `Rerun.RunsAsWritten` | app/app.py:254-316 | As written, over any sequence of runs, the backing file is unchanged without consent, and an unreadable file is never changed. |
| `Rerun.AsWrittenNeverSaves` | app/app.py:254-316 | As the page is laid out, no sequence of interactions changes the backing file. |
| `Rerun.ProcessThenSaveLosesEntry` | app/app.py:254-316 | Clicking "Process audio" and then "Save entry" with consent leaves a readable store exactly as it was. The store the intended runs leave reads differently. |
| `Rerun.NextSession` | app/app.py:254-256 | Removing the upload forgets that it was processed, a process click records it, and any other interaction keeps the session as it was. |
| `Rerun.SaveReached` | app/app.py:254-297 | Intended: the save handler runs exactly on a save click while an upload is present and has been processed in this session. |
| `Rerun.Runs` | app/app.py:254-316 | Over any sequence of runs, the backing file is unchanged without consent, and an unreadable file is never changed. |
| `Rerun.ProcessThenSaveAppends` | app/app.py:254-316 | Intended: process then save, with consent, appends exactly the form's record to a readable store. |
| `Rerun.NoSaveWithoutProcess` | app/app.py:256 | Intended: in a session where the upload was never processed, no sequence of runs changes the backing file. |

## Left out

- Page configuration, CSS, headings, the column layout, the "Record from microphone" and "Download example CSV" buttons, and the "Show saved entries" view (app/app.py:43-179, 219-254, 327-334). These are presentation. The view only displays what `load_db` returns.
- JSON encoding and decoding. A store file is modelled by the list it holds, or as not decoding to a list. A list element of another shape is kept as its JSON text. Byte-level fidelity of `json.dumps`/`json.loads` is left to the library.
- `Store.Load`: a file that decodes to a JSON value other than a list, such as an object or a number, loads as an error. In the source, `load_db` returns that value without raising. A save then fails at `append`. The export writes the value and then reports its `len`, which raises for a number.
- `Store.EntryStore.ExportAll`: a store file that decodes to a JSON value other than a list, such as an object, is counted as an error, like undecodable text, so nothing is exported. The source's export handler writes that value to `export.json` and then reports its `len` or raises. A save raises on such a file before writing, as modelled, because only a list has `append`.
- Disk failures on write, and the write of the uploaded bytes to the upload directory (app/app.py:262-263). The model computes the path but does not hold the audio files.
- Creation of the upload directory at start-up (app/app.py:39).
- The clock. The upload timestamp `ts` and the recording date (app/app.py:260, 293) are parameters. The `%Y%m%dT%H%M%SZ` format is not modelled.
- The internals of `WhisperModel.transcribe` and `transliterate` (app/app.py:195, 205). The first is the function parameter `engine`; the second is the function held by `TranslitAvailable`.
- Segments and their timestamps (app/app.py:196-197, 274). `AsrResult` has no segment list, and the joining of segment texts into the transcript is part of what `engine` reports.
- Streamlit's execution model, beyond whether a run reaches the save handler and how long `MODEL` lives. As the page is laid out, the save handler cannot be reached, and each script run starts with an empty model cache (see "Findings"). `Intake.ProcessUpload` describes the block as intended: one uninterrupted pass of upload, recognition, edits, then the save button. The model does not say which widget values survive from one rerun to the next. It also leaves out that the recognition and the timestamp are recomputed on each run.
- `Asr.AsrProvider`: keeps `MODEL` for the life of the server process, as intended, so a sequence of `Intake.ProcessUpload` calls reuses one model. As written, every script run resets it. That behaviour is modelled separately by `Asr.ClickResultsAsWritten` and `Asr.LoadsAsWritten`.
- Concurrent sessions. Two sessions appending at once can lose an update, because the store is read, extended and rewritten with no lock. The model is sequential.
- `Text.Suffix`: treats the uploaded name as a single path component. `PurePath` would first split off any directory part of the name.
- `Text.JoinPath`: covers a single-component name only. `pathlib`'s other normalisations are not modelled, such as collapsing repeated separators and dropping `.` components, and an empty path reads as `.` in `pathlib`.

## Findings

| source | as written | input that shows it | evidently intended | confidence | as-written member | corrected member |
|---|---|---|---|---|---|---|
| app/app.py:254-256, 288-297 | The metadata form, and with it the save handler, is drawn only in a run where the "Process audio" button reads true. A click on "Save entry" starts a new run in which that button reads false, so the handler never runs and no entry is ever saved. | Upload a file, click "Process audio", tick consent, click "Save entry": the backing file is unchanged. | The processed upload stays on the page across runs, so that a save click after a process click reaches the consent gate and appends the record. | not executed | `Rerun.SaveReachedAsWritten`, `Rerun.ProcessThenSaveLosesEntry` | `Rerun.SaveReached`, `Rerun.ProcessThenSaveAppends` |
| app/app.py:41, 182-189, 267 | `MODEL = None` runs at the top of every script run, and `load_model` is called at most once per run, from the "Process audio" branch. So `MODEL` is always empty when `load_model` runs, and every click loads a new model. | With the library installed, click "Process audio" twice with size "small": two models are built. | One model for the server process, loaded by the first click and reused afterwards. | not executed | `Asr.EveryClickReloads`, `Asr.TwoClicksLoadTwice` | `Asr.ProcessCacheLoadsOnce`, `Asr.AsrProvider.LoadModel` |

=== FILE: asr.dfy ===
/**
 * The speech-recognition adapter: the model handle `MODEL` that `load_model`
 * fills in lazily, and `transcribe_with_whisper`, which turns an absent
 * recogniser into an explicit "unavailable" result. The recogniser itself is
 * a foreign library and enters only as the function `engine`.
 *
 * `MODEL` is a module global, and Streamlit runs the script afresh, in a new
 * namespace, on every interaction. As written, the cache therefore lives for
 * one script run, and each "Process audio" click starts from an empty one
 * (`ClickResultsAsWritten`, `LoadsAsWritten`). `AsrProvider` keeps the cache
 * for as long as the server process, which is what the global evidently
 * means: one model, loaded once.
 */
module Asr {
  import opened Wrappers

  /** A loaded recogniser, identified by the arguments it was constructed with. */
  datatype WhisperModel = WhisperModel(size: string, device: string, computeType: string)

  /** `WhisperModel(model_size, device="cpu", compute_type="int8")`. */
  function NewWhisperModel(size: string): (m: WhisperModel)
    ensures m.size == size && m.device == "cpu" && m.computeType == "int8"
  {
    WhisperModel(size, "cpu", "int8")
  }

  /** What the recogniser reports for one file: the joined transcript and the detected language. */
  datatype Transcription = Transcription(transcript: string, language: string)

  /**
   * The dictionary `transcribe_with_whisper` returns: a transcript, a
   * language (`None` when unknown) and, only when recognition was not
   * possible, an error message. Segments are not modelled.
   */
  datatype AsrResult = AsrResult(transcript: string, language: Option<string>, error: Option<string>)

  const UnavailableMessage: string := "faster-whisper not available"

  /** The result when the recogniser library is absent. */
  const Unavailable: AsrResult := AsrResult("", None, Some(UnavailableMessage))

  /** The result built from what the recogniser reported. */
  function FromTranscription(t: Transcription): (r: AsrResult)
    ensures r.error == None
    ensures r.transcript == t.transcript && r.language == Some(t.language)
  {
    AsrResult(t.transcript, Some(t.language), None)
  }

  /** What one call of `load_model` returns and what `MODEL` holds afterwards. */
  datatype LoadOutcome = LoadOutcome(result: Option<WhisperModel>, cache: Option<WhisperModel>)

  /**
   * One call of `load_model(size)` given whether the library imported and
   * what `MODEL` holds: nothing without the library; otherwise the cached
   * model, loading it with this call's size first when there is none.
   */
  function LoadModelStep(available: bool, cached: Option<WhisperModel>, size: string): (o: LoadOutcome)
    ensures !available ==> o.result == None && o.cache == cached
    ensures available ==> o.result.Some? && o.cache == o.result
    ensures available && cached.Some? ==> o.result == cached
    ensures available && cached.None? ==> o.result == Some(NewWhisperModel(size))
  {
    if !available then LoadOutcome(None, cached)
    else if cached.None? then
      var m := Some(NewWhisperModel(size));
      LoadOutcome(m, m)
    else LoadOutcome(cached, cached)
  }

  /** The results of successive `load_model` calls with the given sizes. */
  function LoadResults(available: bool, cached: Option<WhisperModel>, sizes: seq<string>): (rs: seq<Option<WhisperModel>>)
    ensures |rs| == |sizes|
    decreases |sizes|
  {
    if sizes == [] then []
    else
      var o := LoadModelStep(available, cached, sizes[0]);
      [o.result] + LoadResults(available, o.cache, sizes[1..])
  }

  /** Without the library every call returns `None`. */
  lemma {:induction false} UnavailableNeverLoads(cached: Option<WhisperModel>, sizes: seq<string>)
    ensures forall i :: 0 <= i < |sizes| ==> LoadResults(false, cached, sizes)[i] == None
    decreases |sizes|
  {
    if sizes != [] {
      UnavailableNeverLoads(cached, sizes[1..]);
    }
  }

  /** Once a model is cached, every later call returns it, whatever size is asked for. */
  lemma {:induction false} CachedModelReused(m: WhisperModel, sizes: seq<string>)
    ensures forall i :: 0 <= i < |sizes| ==> LoadResults(true, Some(m), sizes)[i] == Some(m)
    decreases |sizes|
  {
    if sizes != [] {
      CachedModelReused(m, sizes[1..]);
    }
  }

  /**
   * The cache is one-shot: starting from an empty `MODEL`, every call of a
   * run returns the model loaded by the first call, with the first call's size.
   */
  lemma FirstLoadWins(sizes: seq<string>)
    requires sizes != []
    ensures forall i :: 0 <= i < |sizes| ==>
      LoadResults(true, None, sizes)[i] == Some(NewWhisperModel(sizes[0]))
  {
    var m := NewWhisperModel(sizes[0]);
    CachedModelReused(m, sizes[1..]);
    assert LoadResults(true, None, sizes) == [Some(m)] + LoadResults(true, Some(m), sizes[1..]);
  }

  /** How many of successive `load_model` calls build a model. */
  function Loads(available: bool, cached: Option<WhisperModel>, sizes: seq<string>): (n: nat)
    ensures n <= |sizes|
    decreases |sizes|
  {
    if sizes == [] then 0
    else
      var o := LoadModelStep(available, cached, sizes[0]);
      (if available && cached.None? then 1 else 0) + Loads(available, o.cache, sizes[1..])
  }

  /** With a model cached, no later call builds another. */
  lemma {:induction false} CachedNeverReloads(m: WhisperModel, sizes: seq<string>)
    ensures Loads(true, Some(m), sizes) == 0
    decreases |sizes|
  {
    if sizes != [] {
      CachedNeverReloads(m, sizes[1..]);
    }
  }

  /** Intended: with one cache for the whole process, a run of calls builds exactly one model. */
  lemma ProcessCacheLoadsOnce(sizes: seq<string>)
    requires sizes != []
    ensures Loads(true, None, sizes) == 1
  {
    CachedNeverReloads(NewWhisperModel(sizes[0]), sizes[1..]);
  }

  /**
   * As written: what `load_model` returns on successive "Process audio"
   * clicks, each in a script run of its own that starts with `MODEL = None`.
   */
  function ClickResultsAsWritten(available: bool, sizes: seq<string>): (rs: seq<Option<WhisperModel>>)
    ensures |rs| == |sizes|
    decreases |sizes|
  {
    if sizes == [] then []
    else LoadResults(available, None, [sizes[0]]) + ClickResultsAsWritten(available, sizes[1..])
  }

  /** As written: how many models successive clicks build. */
  function LoadsAsWritten(available: bool, sizes: seq<string>): (n: nat)
    ensures n <= |sizes|
    decreases |sizes|
  {
    if sizes == [] then 0
    else Loads(available, None, [sizes[0]]) + LoadsAsWritten(available, sizes[1..])
  }

  /**
   * As written, with the library present, every click builds a fresh model
   * of the size selected at that click; nothing is reused across clicks.
   */
  lemma {:induction false} EveryClickReloads(sizes: seq<string>)
    ensures LoadsAsWritten(true, sizes) == |sizes|
    ensures forall i :: 0 <= i < |sizes| ==> ClickResultsAsWritten(true, sizes)[i] == Some(NewWhisperModel(sizes[i]))
    decreases |sizes|
  {
    if sizes != [] {
      EveryClickReloads(sizes[1..]);
      var first := LoadResults(true, None, [sizes[0]]);
      assert first == [Some(NewWhisperModel(sizes[0]))];
      assert Loads(true, None, [sizes[0]]) == 1;
      assert ClickResultsAsWritten(true, sizes) == first + ClickResultsAsWritten(true, sizes[1..]);
      forall i | 1 <= i < |sizes|
        ensures ClickResultsAsWritten(true, sizes)[i] == Some(NewWhisperModel(sizes[i]))
      {
        assert sizes[1..][i - 1] == sizes[i];
      }
    }
  }

  /** Two clicks with the same size: as written two models are built, with one process-wide cache only one. */
  lemma TwoClicksLoadTwice()
    ensures LoadsAsWritten(true, ["small", "small"]) == 2
    ensures Loads(true, None, ["small", "small"]) == 1
  {
    EveryClickReloads(["small", "small"]);
    ProcessCacheLoadsOnce(["small", "small"]);
  }

  /**
   * The recogniser capability: whether `faster_whisper` imported, and
   * `MODEL`, kept for the life of the server process.
   */
  class AsrProvider {
    const whisperAvailable: bool
    var model: Option<WhisperModel>

    /** Server start: the import has been tried and no model is loaded. */
    constructor (whisperAvailable: bool)
      ensures this.whisperAvailable == whisperAvailable && model == None
    {
      this.whisperAvailable := whisperAvailable;
      model := None;
    }

    /** `load_model(size)`. A model, once loaded, is never replaced. */
    method LoadModel(size: string) returns (m: Option<WhisperModel>)
      modifies this`model
      ensures LoadOutcome(m, model) == LoadModelStep(whisperAvailable, old(model), size)
      ensures old(model).Some? ==> model == old(model)
    {
      if !whisperAvailable {
        return None;
      }
      if model.None? {
        model := Some(NewWhisperModel(size));
      }
      m := model;
    }

    /**
     * `transcribe_with_whisper(audioPath, size)`: the unavailable result
     * without the library, otherwise what the (cached) model reports.
     */
    method TranscribeWithWhisper(audioPath: string, size: string, engine: (WhisperModel, string) -> Transcription)
      returns (r: AsrResult)
      modifies this`model
      ensures model == LoadModelStep(whisperAvailable, old(model), size).cache
      ensures !whisperAvailable ==> r == Unavailable
      ensures whisperAvailable ==> model.Some? && r == FromTranscription(engine(model.value, audioPath))
      ensures r.error.Some? <==> !whisperAvailable
    {
      var m := LoadModel(size);
      if m.None? {
        return Unavailable;
      }
      var t := engine(m.value, audioPath);
      r := FromTranscription(t);
    }
  }
}

=== FILE: intake.dfy ===
/**
 * One pass of the intake form: the transcript, language and transliteration
 * offered for editing, the record built from the operator's final values,
 * and the consent gate in front of `save_entry`.
 */
module Intake {
  import opened Wrappers
  import Text
  import Store
  import Asr
  import Transliteration

  /** Uploads are kept in this directory next to the application script. */
  const UploadsDirName: string := "uploads"
  /** The value the manual language box starts with. */
  const DefaultLanguage: string := "hi"

  /** `UPLOAD_DIR`, given the directory that holds the application script. */
  function UploadDir(baseDir: string): (dir: string)
    ensures |dir| >= |UploadsDirName| && dir[|dir| - |UploadsDirName|..] == UploadsDirName
    ensures baseDir != [] ==>
      |baseDir| + |UploadsDirName| <= |dir| && dir[..|baseDir|] == baseDir && dir[|dir| - |UploadsDirName| - 1] == '/'
  {
    Text.JoinPath(baseDir, UploadsDirName)
  }

  /** What the operator does with a prefilled text box: leave it, or type something else. */
  datatype Edit = Keep | Replace(text: string)

  /** The value a text box returns, given the value it was prefilled with. */
  function Edited(edit: Edit, initial: string): (value: string) {
    match edit
    case Keep => initial
    case Replace(text) => text
  }

  /** The operator's edits to the transcript, language, transliteration and translation boxes. */
  datatype Edits = Edits(transcript: Edit, language: Edit, transliteration: Edit, translation: Edit)

  /** The metadata form: four free-text fields, the recording date as text, and the consent box. */
  datatype Metadata = Metadata(
    title: string,
    performer: string,
    location: string,
    context: string,
    dateOfRecording: string,
    consent: bool)

  /** The values in the form's boxes when it is submitted. */
  datatype Draft = Draft(transcript: string, detectedLanguage: string, transliteration: string, translation: string)

  /** The transcript box's initial value: empty when recognition failed, otherwise the recognised text. */
  function InitialTranscript(asr: Asr.AsrResult): (t: string)
    ensures asr.error.Some? ==> t == ""
    ensures asr.error.None? ==> t == asr.transcript
  {
    if asr.error.Some? then "" else asr.transcript
  }

  /**
   * The language used: the recogniser's when it reported a non-empty one,
   * otherwise whatever the operator leaves in the manual box (prefilled "hi").
   */
  function DetectedLanguage(asr: Asr.AsrResult, edit: Edit): (lang: string)
    ensures asr.language.Some? && asr.language.value != "" ==> lang == asr.language.value
    ensures asr.language.None? || asr.language.value == "" ==> lang == Edited(edit, DefaultLanguage)
  {
    match asr.language
    case Some(l) => if l != "" then l else Edited(edit, DefaultLanguage)
    case None => Edited(edit, DefaultLanguage)
  }

  /**
   * The transliteration box's initial value: a transliteration only of a
   * transcript with some non-whitespace content, and only when the library
   * is present; the empty string otherwise.
   */
  function InitialTransliteration(cap: Transliteration.TranslitCapability, transcript: string, lang: string): (t: string)
    ensures Text.IsBlank(transcript) ==> t == ""
    ensures !Text.IsBlank(transcript) ==> t == Transliteration.Romanize(cap, transcript, lang)
  {
    if Text.Strip(transcript) != [] then
      (if cap.TranslitAvailable? then Transliteration.Romanize(cap, transcript, lang) else "")
    else ""
  }

  /**
   * The boxes' final values, read top to bottom as the page lays them out:
   * the transliteration box is prefilled from the transcript box's returned,
   * possibly edited, value. Whatever the operator types into a box wins.
   */
  function MakeDraft(asr: Asr.AsrResult, cap: Transliteration.TranslitCapability, edits: Edits): (d: Draft)
    ensures edits.transcript.Replace? ==> d.transcript == edits.transcript.text
    ensures edits.transliteration.Replace? ==> d.transliteration == edits.transliteration.text
    ensures edits.translation.Replace? ==> d.translation == edits.translation.text
    ensures edits.translation.Keep? ==> d.translation == ""
    ensures edits.transliteration.Keep? && Text.IsBlank(d.transcript) ==> d.transliteration == ""
    ensures edits.transcript.Keep? ==> d.transcript == InitialTranscript(asr)
    ensures d.detectedLanguage == DetectedLanguage(asr, edits.language)
    ensures edits.transliteration.Keep? && !Text.IsBlank(d.transcript) ==>
      d.transliteration == Transliteration.Romanize(cap, d.transcript, d.detectedLanguage)
  {
    var transcript := Edited(edits.transcript, InitialTranscript(asr));
    var lang := DetectedLanguage(asr, edits.language);
    var transliteration := Edited(edits.transliteration, InitialTransliteration(cap, transcript, lang));
    Draft(transcript, lang, transliteration, Edited(edits.translation, ""))
  }

  /**
   * Where the upload is kept: the upload directory joined with the
   * timestamp followed by the uploaded name's suffix.
   */
  function SavedPath(uploadDir: string, ts: string, uploadName: string): (p: string)
    ensures var file := ts + Text.Suffix(uploadName);
      |file| <= |p| && p[|p| - |file|..] == file
    ensures var file := ts + Text.Suffix(uploadName);
      uploadDir != [] && ts != [] && ts[0] != '/' ==>
        |uploadDir| + |file| <= |p| && p[..|uploadDir|] == uploadDir && p[|p| - |file| - 1] == '/'
  {
    Text.JoinPath(uploadDir, ts + Text.Suffix(uploadName))
  }

  /**
   * The record the form saves, built from the upload's timestamp and path
   * and the form's final values: the timestamp serves as both id and upload
   * time, and the transliteration saved is the box's value.
   */
  function BuildEntry(ts: string, audioPath: string, meta: Metadata, draft: Draft): (e: Store.Entry)
    ensures e.id == ts && e.uploadedAt == ts && e.audioPath == audioPath
    ensures e.title == meta.title && e.performer == meta.performer && e.location == meta.location
    ensures e.context == meta.context && e.dateOfRecording == meta.dateOfRecording
    ensures e.transcript == draft.transcript && e.transliteration == draft.transliteration
    ensures e.translation == draft.translation && e.detectedLanguage == draft.detectedLanguage
  {
    Store.Entry(
      id := ts,
      title := meta.title,
      performer := meta.performer,
      location := meta.location,
      context := meta.context,
      dateOfRecording := meta.dateOfRecording,
      uploadedAt := ts,
      audioPath := audioPath,
      transcript := draft.transcript,
      transliteration := draft.transliteration,
      translation := draft.translation,
      detectedLanguage := draft.detectedLanguage)
  }

  /** The record a submission of this upload would save. */
  function SubmittedEntry(baseDir: string, ts: string, uploadName: string, meta: Metadata, draft: Draft): (e: Store.Entry) {
    BuildEntry(ts, SavedPath(UploadDir(baseDir), ts, uploadName), meta, draft)
  }

  /** What the save button leads to. */
  datatype Decision = NoSubmission | ConsentRequired | Persist

  /** The consent gate: a submission is persisted exactly when consent is given, and refused otherwise. */
  function Decide(submitted: bool, consent: bool): (d: Decision)
    ensures d == Persist <==> submitted && consent
    ensures d == ConsentRequired <==> submitted && !consent
    ensures d == NoSubmission <==> !submitted
  {
    if !submitted then NoSubmission
    else if !consent then ConsentRequired
    else Persist
  }

  /** The backing file after the form is handled. */
  function SubmitEffect(f: Store.StoreFile, submitted: bool, consent: bool, e: Store.Entry): (g: Store.StoreFile)
    ensures !consent || !submitted ==> g == f
    ensures submitted && consent && Store.Load(f).Ok? ==> Store.Load(g) == Ok(Store.Load(f).value + [Store.EntryRecord(e)])
    ensures Store.Load(f).Err? ==> g == f
  {
    if Decide(submitted, consent) == Persist then Store.AfterSave(f, e) else f
  }

  /**
   * A consented submission adds exactly one record, at the end, with the
   * upload's timestamp as both id and upload time, the upload's path, and
   * the form's final text values; everything saved before is untouched.
   */
  lemma ConsentedSubmissionAppendsOne(
    f: Store.StoreFile, baseDir: string, ts: string, uploadName: string, meta: Metadata, draft: Draft)
    requires meta.consent && Store.Load(f).Ok?
    ensures var e := SubmittedEntry(baseDir, ts, uploadName, meta, draft);
      var before, after := Store.Load(f).value, Store.Load(SubmitEffect(f, true, meta.consent, e)).value;
      && |after| == |before| + 1
      && after[..|before|] == before
      && after[|before|] == Store.EntryRecord(e)
      && e.id == ts && e.uploadedAt == ts
      && e.title == meta.title && e.performer == meta.performer
      && e.location == meta.location && e.context == meta.context
      && e.dateOfRecording == meta.dateOfRecording
      && e.audioPath == Text.JoinPath(UploadDir(baseDir), ts + Text.Suffix(uploadName))
      && e.transcript == draft.transcript
      && e.transliteration == draft.transliteration
      && e.translation == draft.translation
      && e.detectedLanguage == draft.detectedLanguage
  {
    var e := SubmittedEntry(baseDir, ts, uploadName, meta, draft);
    Store.SaveAppendsAtEnd(f, e);
  }

  /** Recognition unavailable: the transcript and language come from the operator alone. */
  lemma UnavailableAsrFallsBackToOperator(cap: Transliteration.TranslitCapability, edits: Edits)
    ensures MakeDraft(Asr.Unavailable, cap, edits).transcript == Edited(edits.transcript, "")
    ensures MakeDraft(Asr.Unavailable, cap, edits).detectedLanguage == Edited(edits.language, DefaultLanguage)
  {
  }

  /**
   * The text romanized is the transcript box's final value: a transcript the
   * operator typed is romanized, read in the script of the language in use.
   */
  lemma EditedTranscriptIsRomanized(
    asr: Asr.AsrResult, tr: (string, Transliteration.Scheme, Transliteration.Scheme) -> string,
    t: string, le: Edit, translation: Edit)
    requires !Text.IsBlank(t)
    ensures var d := MakeDraft(asr, Transliteration.TranslitAvailable(tr), Edits(Replace(t), le, Keep, translation));
      d.transcript == t
      && d.transliteration == tr(t, Transliteration.SchemeFor(DetectedLanguage(asr, le)), Transliteration.Itrans)
  {
  }

  /**
   * The operator keeps every prefilled box after a successful recognition:
   * the recognised text is the transcript, the recognised language is used
   * unless it is empty, and a non-blank transcript is romanized in that
   * language's script when the library is present.
   */
  lemma RecognisedTextKept(t: Asr.Transcription, cap: Transliteration.TranslitCapability, le: Edit)
    ensures var d := MakeDraft(Asr.FromTranscription(t), cap, Edits(Keep, le, Keep, Keep));
      && d.transcript == t.transcript
      && (t.language != "" ==> d.detectedLanguage == t.language)
      && (t.language == "" ==> d.detectedLanguage == Edited(le, DefaultLanguage))
      && (cap.TranslitAvailable? && !Text.IsBlank(t.transcript) ==>
            d.transliteration == cap.transliterate(t.transcript, Transliteration.SchemeFor(d.detectedLanguage), Transliteration.Itrans))
      && (cap.TranslitUnavailable? || Text.IsBlank(t.transcript) ==> d.transliteration == "")
      && d.translation == ""
  {
  }

  /** With recognition unavailable, the operator's transcript is romanized in the script of the manual language box. */
  lemma ManualTranscriptIsRomanized(
    tr: (string, Transliteration.Scheme, Transliteration.Scheme) -> string, t: string, le: Edit)
    requires !Text.IsBlank(t)
    ensures MakeDraft(Asr.Unavailable, Transliteration.TranslitAvailable(tr), Edits(Replace(t), le, Keep, Keep)).transliteration
      == tr(t, Transliteration.SchemeFor(Edited(le, "hi")), Transliteration.Itrans)
  {
  }

  /** The operator types the lyrics after recognition failed; no transliteration library is present. */
  lemma ManualTranscriptScenario()
    ensures var d := MakeDraft(Asr.Unavailable, Transliteration.TranslitUnavailable,
                               Edits(Replace("sample lyrics"), Keep, Keep, Keep));
      d.transcript == "sample lyrics" && d.transliteration == "" && d.detectedLanguage == "hi" && d.translation == ""
  {
  }

  /** Recognition reports Hindi text and the library romanizes it; the operator keeps every box. */
  lemma RecognisedHindiScenario(translit: (string, Transliteration.Scheme, Transliteration.Scheme) -> string)
    requires translit("राम राम", Transliteration.Devanagari, Transliteration.Itrans) == "rAma rAma"
    ensures var d := MakeDraft(Asr.FromTranscription(Asr.Transcription("राम राम", "hi")),
                               Transliteration.TranslitAvailable(translit), Edits(Keep, Keep, Keep, Keep));
      d.transcript == "राम राम" && d.detectedLanguage == "hi" && d.transliteration == "rAma rAma"
  {
    assert !Text.IsSpace("राम राम"[0]);
  }

  /** What handling the form came to. */
  datatype SubmitOutcome = Idle | ConsentError | Saved(entry: Store.Entry) | SaveFailed(error: Store.StoreError)

  /**
   * The save button's handler: without consent report that it is required
   * and write nothing; with consent hand `e` to `save_entry`.
   */
  method Submit(store: Store.EntryStore, submitted: bool, consent: bool, e: Store.Entry) returns (o: SubmitOutcome)
    modifies store`db
    ensures store.db == SubmitEffect(old(store.db), submitted, consent, e)
    ensures !submitted ==> o == Idle
    ensures submitted && !consent ==> o == ConsentError
    ensures submitted && consent ==>
      (if Store.Load(old(store.db)).Ok? then o == Saved(e) else o == SaveFailed(Store.CorruptStore))
  {
    match Decide(submitted, consent)
    case NoSubmission =>
      o := Idle;
    case ConsentRequired =>
      o := ConsentError;
    case Persist =>
      var r := store.SaveEntry(e);
      o := if r.Ok? then Saved(e) else SaveFailed(r.error);
  }

  /**
   * One upload from "Process audio" to the save button: recognise the
   * stored file, prefill and edit the boxes, build the record, and pass it
   * through the consent gate. `submitted` is the save button as the intended
   * flow delivers it, `Rerun.SaveReached`, and not as the page is laid out.
   */
  method ProcessUpload(
    asr: Asr.AsrProvider, store: Store.EntryStore, cap: Transliteration.TranslitCapability,
    engine: (Asr.WhisperModel, string) -> Asr.Transcription,
    baseDir: string, uploadName: string, ts: string, modelSize: string,
    edits: Edits, meta: Metadata, submitted: bool)
    returns (result: Asr.AsrResult, o: SubmitOutcome)
    modifies asr`model, store`db
    ensures asr.model == Asr.LoadModelStep(asr.whisperAvailable, old(asr.model), modelSize).cache
    ensures result.error.Some? <==> !asr.whisperAvailable
    ensures !asr.whisperAvailable ==> result == Asr.Unavailable
    ensures asr.whisperAvailable ==>
      asr.model.Some? && result == Asr.FromTranscription(engine(asr.model.value, SavedPath(UploadDir(baseDir), ts, uploadName)))
    ensures var e := SubmittedEntry(baseDir, ts, uploadName, meta, MakeDraft(result, cap, edits));
      && store.db == SubmitEffect(old(store.db), submitted, meta.consent, e)
      && (submitted && meta.consent ==>
            (if Store.Load(old(store.db)).Ok? then o == Saved(e) else o == SaveFailed(Store.CorruptStore)))
    ensures !submitted ==> o == Idle
    ensures submitted && !meta.consent ==> o == ConsentError
    ensures !(submitted && meta.consent) ==> store.db == old(store.db)
  {
    var savedPath := SavedPath(UploadDir(baseDir), ts, uploadName);
    result := asr.TranscribeWithWhisper(savedPath, modelSize, engine);
    var draft := MakeDraft(result, cap, edits);
    var e := BuildEntry(ts, savedPath, meta, draft);
    o := Submit(store, submitted, meta.consent, e);
  }
}

=== FILE: rerun.dfy ===
/**
 * The page as a sequence of script runs. Streamlit runs the whole script
 * again after every interaction, and a button reads true only in the run
 * its own click started. The save handler sits inside the form, and the
 * form is drawn only in a run where "Process audio" reads true.
 *
 * `SaveReachedAsWritten` and `RunsAsWritten` follow that layout; they show
 * that the handler is never reached, so no run ever saves. `SaveReached`
 * and `Runs` keep "this upload has been processed" in the session across
 * runs, which is what the page evidently means: a save click after a
 * process click reaches the consent gate.
 */
module Rerun {
  import opened Wrappers
  import Store
  import Intake

  /** The interaction that started a run. */
  datatype Trigger = ProcessClick | SaveClick | OtherInput

  /**
   * As written: in the run a click started, `process` is true only for a
   * process click, and the form's submit button only for a save click; the
   * handler needs both, since the form lies inside the `process` branch.
   */
  function SaveReachedAsWritten(audioPresent: bool, t: Trigger): (reached: bool)
    ensures !reached
  {
    var process := audioPresent && t == ProcessClick;
    var submitted := t == SaveClick;
    process && submitted
  }

  /** The backing file after a sequence of runs, as written. */
  function RunsAsWritten(f: Store.StoreFile, audioPresent: bool, ts: seq<Trigger>, consent: bool, e: Store.Entry)
    : (g: Store.StoreFile)
    ensures !consent ==> g == f
    ensures Store.Load(f).Err? ==> g == f
    decreases |ts|
  {
    if ts == [] then f
    else RunsAsWritten(Intake.SubmitEffect(f, SaveReachedAsWritten(audioPresent, ts[0]), consent, e),
                       audioPresent, ts[1..], consent, e)
  }

  /** As written, no sequence of runs changes the backing file, whatever the operator clicks. */
  lemma {:induction false} AsWrittenNeverSaves(
    f: Store.StoreFile, audioPresent: bool, ts: seq<Trigger>, consent: bool, e: Store.Entry)
    ensures RunsAsWritten(f, audioPresent, ts, consent, e) == f
    decreases |ts|
  {
    if ts != [] {
      var reached := SaveReachedAsWritten(audioPresent, ts[0]);
      assert Intake.SubmitEffect(f, reached, consent, e) == f;
      AsWrittenNeverSaves(f, audioPresent, ts[1..], consent, e);
    }
  }

  /**
   * The operator's natural sequence, process then save with consent, leaves
   * a readable store as it was, where the intended page saves the record.
   */
  lemma ProcessThenSaveLosesEntry(f: Store.StoreFile, e: Store.Entry)
    requires Store.Load(f).Ok?
    ensures RunsAsWritten(f, true, [ProcessClick, SaveClick], true, e) == f
    ensures Store.Load(RunsAsWritten(f, true, [ProcessClick, SaveClick], true, e))
      != Store.Load(Runs(Fresh, f, true, [ProcessClick, SaveClick], true, e))
  {
    AsWrittenNeverSaves(f, true, [ProcessClick, SaveClick], true, e);
    ProcessThenSaveAppends(f, e);
    var before := Store.Load(f).value;
    assert |before + [Store.EntryRecord(e)]| != |before|;
  }

  /** What the session keeps between runs: whether the current upload has been processed. */
  datatype Session = Session(processed: bool)

  /** A fresh session: nothing processed yet. */
  const Fresh: Session := Session(false)

  /**
   * The session after a run: removing the upload forgets the processing,
   * a process click records it, and any other interaction keeps it.
   */
  function NextSession(s: Session, audioPresent: bool, t: Trigger): (n: Session)
    ensures !audioPresent ==> !n.processed
    ensures audioPresent && t == ProcessClick ==> n.processed
    ensures audioPresent && t != ProcessClick ==> n == s
  {
    if !audioPresent then Session(false)
    else if t == ProcessClick then Session(true)
    else s
  }

  /**
   * Intended: the handler runs on a save click while an upload is present
   * and has been processed in this session.
   */
  function SaveReached(s: Session, audioPresent: bool, t: Trigger): (reached: bool)
    ensures reached ==> t == SaveClick && audioPresent && s.processed
    ensures t == SaveClick && audioPresent && s.processed ==> reached
  {
    audioPresent && s.processed && t == SaveClick
  }

  /** The backing file after a sequence of runs, as intended. */
  function Runs(s: Session, f: Store.StoreFile, audioPresent: bool, ts: seq<Trigger>, consent: bool, e: Store.Entry)
    : (g: Store.StoreFile)
    ensures !consent ==> g == f
    ensures Store.Load(f).Err? ==> g == f
    decreases |ts|
  {
    if ts == [] then f
    else Runs(NextSession(s, audioPresent, ts[0]),
              Intake.SubmitEffect(f, SaveReached(s, audioPresent, ts[0]), consent, e),
              audioPresent, ts[1..], consent, e)
  }

  /** Process then save, with consent, appends exactly the form's record to a readable store. */
  lemma ProcessThenSaveAppends(f: Store.StoreFile, e: Store.Entry)
    requires Store.Load(f).Ok?
    ensures Store.Load(Runs(Fresh, f, true, [ProcessClick, SaveClick], true, e))
      == Ok(Store.Load(f).value + [Store.EntryRecord(e)])
  {
  }

  /** Still intended: nothing is saved in a session where the upload was never processed. */
  lemma {:induction false} NoSaveWithoutProcess(
    s: Session, f: Store.StoreFile, audioPresent: bool, ts: seq<Trigger>, consent: bool, e: Store.Entry)
    requires !s.processed
    requires forall i :: 0 <= i < |ts| ==> ts[i] != ProcessClick
    ensures Runs(s, f, audioPresent, ts, consent, e) == f
    decreases |ts|
  {
    if ts != [] {
      assert ts[0] != ProcessClick;
      var n := NextSession(s, audioPresent, ts[0]);
      assert !SaveReached(s, audioPresent, ts[0]);
      assert forall i :: 0 <= i < |ts[1..]| ==> ts[1..][i] == ts[i + 1];
      NoSaveWithoutProcess(n, f, audioPresent, ts[1..], consent, e);
    }
  }
}

=== FILE: store.dfy ===
/**
 * The entry store: `load_db`, `save_entry` and the "Export all as JSON"
 * handler. The backing file `data.json` and the export file `export.json`
 * are modelled by what they hold; the JSON text itself is not modelled.
 */
module Store {
  import opened Wrappers
  import Text

  /** One saved collection record, with the keys of the saved dictionary. */
  datatype Entry = Entry(
    id: string,
    title: string,
    performer: string,
    location: string,
    context: string,
    dateOfRecording: string,
    uploadedAt: string,
    audioPath: string,
    transcript: string,
    transliteration: string,
    translation: string,
    detectedLanguage: string)

  /**
   * One element of the stored JSON list: a record of the shape this program
   * writes, or any other JSON value (a record of an older shape, say), held
   * as its JSON text. `load_db` hands back either kind unchecked.
   */
  datatype Record = EntryRecord(entry: Entry) | OtherValue(json: string)

  /**
   * What a JSON file of the store holds: nothing at all (it was never
   * written), a list, or text that does not decode to a list.
   */
  datatype StoreFile = Missing | Stored(records: seq<Record>) | Unreadable

  /** The error raised when a file does not decode to a list. */
  datatype StoreError = CorruptStore

  /** File names of the store, next to the application script. */
  const DbFileName: string := "data.json"
  const ExportFileName: string := "export.json"

  /**
   * `load_db`: the collection a file holds. A file that was never written is
   * the empty collection, not an error; one that does not decode to a list
   * is an error.
   */
  function Load(f: StoreFile): (r: Result<seq<Record>, StoreError>)
    ensures f.Missing? ==> r == Ok([])
    ensures f.Stored? ==> r == Ok(f.records)
    ensures f.Unreadable? ==> r == Err(CorruptStore)
  {
    match f
    case Missing => Ok([])
    case Stored(records) => Ok(records)
    case Unreadable => Err(CorruptStore)
  }

  /** The list elements that saving `es` in turn appends. */
  function AsRecords(es: seq<Entry>): (rs: seq<Record>)
    ensures |rs| == |es|
    decreases |es|
  {
    if es == [] then [] else [EntryRecord(es[0])] + AsRecords(es[1..])
  }

  /** One element per entry, each holding that entry, in the same order. */
  lemma {:induction false} AsRecordsHoldEntries(es: seq<Entry>)
    ensures forall i :: 0 <= i < |es| ==> AsRecords(es)[i] == EntryRecord(es[i])
    decreases |es|
  {
    if es != [] {
      AsRecordsHoldEntries(es[1..]);
    }
  }

  /**
   * The backing file after `save_entry(e)`: the collection read back is the
   * old one with `e` at the end; when the old file cannot be read, the load
   * raises before anything is written.
   */
  function AfterSave(f: StoreFile, e: Entry): (g: StoreFile)
    ensures Load(f).Ok? ==> Load(g) == Ok(Load(f).value + [EntryRecord(e)])
    ensures Load(f).Err? ==> g == f
  {
    match Load(f)
    case Ok(db) => Stored(db + [EntryRecord(e)])
    case Err(_) => f
  }

  /** The backing file after saving each of `es` in turn. */
  function AfterSaves(f: StoreFile, es: seq<Entry>): (g: StoreFile)
    decreases |es|
  {
    if es == [] then f else AfterSaves(AfterSave(f, es[0]), es[1..])
  }

  /**
   * The append law of one save: the collection grows by exactly one, every
   * earlier entry keeps its place, and the new entry is last.
   */
  lemma SaveAppendsAtEnd(f: StoreFile, e: Entry)
    requires Load(f).Ok?
    ensures var before, after := Load(f).value, Load(AfterSave(f, e)).value;
      && |after| == |before| + 1
      && after[|before|] == EntryRecord(e)
      && after[..|before|] == before
      && forall i :: 0 <= i < |before| ==> after[i] == before[i]
  {
    var before, after := Load(f).value, Load(AfterSave(f, e)).value;
    assert after == before + [EntryRecord(e)];
  }

  /** Successive saves keep insertion order: the collection is the old one followed by the saved entries, in order. */
  lemma {:induction false} SavesKeepOrder(f: StoreFile, es: seq<Entry>)
    requires Load(f).Ok?
    ensures Load(AfterSaves(f, es)) == Ok(Load(f).value + AsRecords(es))
    decreases |es|
  {
    if es != [] {
      var g := AfterSave(f, es[0]);
      SavesKeepOrder(g, es[1..]);
      var before, first, rest := Load(f).value, [EntryRecord(es[0])], AsRecords(es[1..]);
      assert AfterSaves(f, es) == AfterSaves(g, es[1..]);
      assert Load(AfterSaves(f, es)) == Ok(before + first + rest);
      assert AsRecords(es) == first + rest;
      assert before + first + rest == before + (first + rest);
    } else {
      assert Load(f).value + AsRecords(es) == Load(f).value;
    }
  }

  /** A store that was never written holds exactly what was saved since. */
  lemma NeverWrittenHoldsSaves(es: seq<Entry>)
    ensures Load(AfterSaves(Missing, es)) == Ok(AsRecords(es))
  {
    SavesKeepOrder(Missing, es);
    assert Load(Missing).value + AsRecords(es) == AsRecords(es);
  }

  /** A store that does not decode to a list is never silently overwritten, however many saves are attempted. */
  lemma {:induction false} UnreadableNeverOverwritten(f: StoreFile, es: seq<Entry>)
    requires Load(f).Err?
    ensures AfterSaves(f, es) == f
    decreases |es|
  {
    if es != [] {
      UnreadableNeverOverwritten(AfterSave(f, es[0]), es[1..]);
    }
  }

  /** The two JSON files of the store, as the script's own directory holds them. */
  class EntryStore {
    const dbPath: string
    const exportPath: string
    var db: StoreFile
    var exported: StoreFile

    /** The store as found on disk under `baseDir`. */
    constructor (baseDir: string, db: StoreFile, exported: StoreFile)
      ensures dbPath == Text.JoinPath(baseDir, DbFileName)
      ensures exportPath == Text.JoinPath(baseDir, ExportFileName)
      ensures this.db == db && this.exported == exported
    {
      dbPath := Text.JoinPath(baseDir, DbFileName);
      exportPath := Text.JoinPath(baseDir, ExportFileName);
      this.db := db;
      this.exported := exported;
    }

    /**
     * `save_entry(e)`: read the whole collection, append `e` to it, write the
     * whole collection back. A failed read writes nothing and is reported.
     */
    method SaveEntry(e: Entry) returns (r: Result<(), StoreError>)
      modifies this`db
      ensures db == AfterSave(old(db), e)
      ensures r.Ok? <==> Load(old(db)).Ok?
      ensures r.Ok? ==> Load(db) == Ok(Load(old(db)).value + [EntryRecord(e)])
    {
      var loaded := Load(db);
      if loaded.Err? {
        return Err(loaded.error);
      }
      var list := loaded.value;
      list := list + [EntryRecord(e)];
      db := Stored(list);
      r := Ok(());
    }

    /**
     * The export handler: read the whole collection, write it to the export
     * file unchanged and report how many entries were written. The export
     * file is written even for an empty collection; the backing file is left
     * as it is.
     */
    method ExportAll() returns (r: Result<nat, StoreError>)
      modifies this`exported
      ensures Load(db).Ok? ==> r == Ok(|Load(db).value|) && exported == Stored(Load(db).value)
      ensures Load(db).Err? ==> r == Err(CorruptStore) && exported == old(exported)
    {
      var loaded := Load(db);
      if loaded.Err? {
        return Err(loaded.error);
      }
      exported := Stored(loaded.value);
      r := Ok(|loaded.value|);
    }
  }
}

=== FILE: text.dfy ===
/**
 * The few string and path operations of the Python standard library that the
 * intake code relies on: `str.strip()` (used as a blank test), the suffix of
 * an uploaded file name, and joining a directory with a file name.
 */
module Text {

  /** Python's `str.isspace()` for one character: the whitespace set that `strip()` removes. */
  predicate IsSpace(c: char) {
    || c == ' '
    || ('\t' <= c <= '\r')                  // \t \n \v \f \r
    || ('\U{1C}' <= c <= '\U{1F}')          // file, group, record and unit separators
    || c == '\U{85}' || c == '\U{A0}' || c == '\U{1680}'
    || ('\U{2000}' <= c <= '\U{200A}')
    || c == '\U{2028}' || c == '\U{2029}' || c == '\U{202F}' || c == '\U{205F}' || c == '\U{3000}'
  }

  /** True when the string holds nothing but whitespace (the empty string included). */
  ghost predicate IsBlank(s: string) {
    forall i :: 0 <= i < |s| ==> IsSpace(s[i])
  }

  /** `s.lstrip()`: drops the leading whitespace and nothing else. */
  function StripLeft(s: string): (r: string)
    ensures |r| <= |s| && r == s[|s| - |r|..]
    ensures forall i :: 0 <= i < |s| - |r| ==> IsSpace(s[i])
    ensures r == [] || !IsSpace(r[0])
  {
    if s == [] || !IsSpace(s[0]) then s
    else
      var r := StripLeft(s[1..]);
      assert forall i :: 1 <= i < |s| - |r| ==> s[i] == s[1..][i - 1];
      r
  }

  /** `s.rstrip()`: drops the trailing whitespace and nothing else. */
  function StripRight(s: string): (r: string)
    ensures |r| <= |s| && r == s[..|r|]
    ensures forall i :: |r| <= i < |s| ==> IsSpace(s[i])
    ensures r == [] || !IsSpace(r[|r| - 1])
  {
    if s == [] || !IsSpace(s[|s| - 1]) then s
    else
      var r := StripRight(s[..|s| - 1]);
      assert forall i :: |r| <= i < |s| - 1 ==> s[i] == s[..|s| - 1][i];
      r
  }

  /**
   * `s.strip()`. Python treats the stripped string as true exactly when it
   * is non-empty, so `if s.strip():` tests that `s` is not blank.
   */
  function Strip(s: string): (r: string)
    ensures r == [] <==> IsBlank(s)
    ensures r != [] ==> !IsSpace(r[0]) && !IsSpace(r[|r| - 1])
  {
    var left := StripLeft(s);
    var r := StripRight(left);
    assert r != [] ==> r[0] == left[0];
    assert left != [] ==> r != [];
    assert left == [] ==> IsBlank(s);
    r
  }

  /**
   * `s.rfind(c)`: the index of the last occurrence of `c` in `s`, or -1
   * when `c` does not occur.
   */
  function RFind(s: string, c: char): (i: int)
    ensures -1 <= i < |s|
    ensures 0 <= i ==> s[i] == c
    ensures forall j :: i < j < |s| ==> s[j] != c
  {
    if s == [] then -1
    else if s[|s| - 1] == c then |s| - 1
    else RFind(s[..|s| - 1], c)
  }

  /**
   * `PurePath(name).suffix` for a single path component, as Python 3.8 to
   * 3.13 define it: the text from the last dot on, provided that dot is
   * neither the first nor the last character; otherwise the empty string.
   * (Python 3.14 also counts a lone trailing dot as a suffix.)
   */
  function Suffix(name: string): (r: string)
    ensures r == [] || (2 <= |r| < |name| && r == name[|name| - |r|..])
    ensures r != [] ==> r[0] == '.' && forall j :: 1 <= j < |r| ==> r[j] != '.'
  {
    var i := RFind(name, '.');
    if 0 < i < |name| - 1 then name[i..] else []
  }

  /** The suffix is present exactly when some dot past the first character is the last dot and is followed by text. */
  lemma SuffixPresentIff(name: string)
    ensures Suffix(name) != [] <==>
      exists k :: 0 < k < |name| - 1 && name[k] == '.' && forall j :: k < j < |name| ==> name[j] != '.'
  {
    var i := RFind(name, '.');
    if Suffix(name) != [] {
      assert 0 < i < |name| - 1 && name[i] == '.';
    } else {
      forall k | 0 < k < |name| - 1 && name[k] == '.'
        ensures exists j :: k < j < |name| && name[j] == '.'
      {
        assert k <= i;
        assert i != k;
      }
    }
  }

  /** The last occurrence of `c` is the one with no `c` after it. */
  lemma RFindIs(s: string, c: char, i: int)
    requires 0 <= i < |s| && s[i] == c
    requires forall j :: i < j < |s| ==> s[j] != c
    ensures RFind(s, c) == i
  {
  }

  /** File names as the upload widget accepts them. */
  lemma SuffixExamples()
    ensures Suffix("song1.wav") == ".wav"
    ensures Suffix("song2.mp3") == ".mp3"
    ensures Suffix("field.take2.m4a") == ".m4a"
    ensures Suffix(".ogg") == ""
    ensures Suffix("lullaby") == ""
    ensures Suffix("lullaby.") == ""
  {
    RFindIs("song1.wav", '.', 5);
    RFindIs("song2.mp3", '.', 5);
    RFindIs("field.take2.m4a", '.', 11);
    RFindIs(".ogg", '.', 0);
    RFindIs("lullaby.", '.', 7);
  }

  /**
   * `str(PurePosixPath(dir) / name)` for a single-component `name`: an
   * absolute `name` replaces `dir`, an empty side contributes nothing, and
   * one separator is put between the two otherwise.
   */
  function JoinPath(dir: string, name: string): (p: string)
    ensures |name| <= |p| && p[|p| - |name|..] == name
    ensures name != [] && name[0] != '/' && dir != [] ==>
      |dir| + |name| <= |p| && p[..|dir|] == dir && p[|p| - |name| - 1] == '/'
    ensures |p| <= |dir| + 1 + |name|
  {
    if name != [] && name[0] == '/' then name
    else if name == [] then dir
    else if dir == [] then name
    else if dir[|dir| - 1] == '/' then dir + name
    else dir + "/" + name
  }
}

=== FILE: transliteration.dfy ===
/**
 * `romanize`: choosing the source script for a language code and handing the
 * text to the transliteration library, which is a foreign function here.
 */
module Transliteration {

  /** The script schemes `romanize` names. */
  datatype Scheme = Devanagari | Bengali | Tamil | Telugu | Itrans

  /**
   * Whether `indic_transliteration` imported. When it did, `transliterate`
   * is the library's function from (text, source scheme, target scheme) to text.
   */
  datatype TranslitCapability =
    | TranslitUnavailable
    | TranslitAvailable(transliterate: (string, Scheme, Scheme) -> string)

  /** The language codes with a scheme of their own. */
  const LangToScheme: map<string, Scheme> :=
    map["hi" := Devanagari, "mr" := Devanagari, "bn" := Bengali, "ta" := Tamil, "te" := Telugu]

  /** The script the text is read in: the table entry, Devanagari for any other code. */
  function SchemeFor(lang: string): (s: Scheme)
    ensures lang == "hi" || lang == "mr" ==> s == Devanagari
    ensures lang == "bn" ==> s == Bengali
    ensures lang == "ta" ==> s == Tamil
    ensures lang == "te" ==> s == Telugu
    ensures lang != "hi" && lang != "mr" && lang != "bn" && lang != "ta" && lang != "te" ==> s == Devanagari
    ensures s != Itrans
  {
    if lang in LangToScheme then LangToScheme[lang] else Devanagari
  }

  /** `romanize(text, lang)`: the empty string without the library, otherwise the text rendered in ITRANS. */
  function Romanize(cap: TranslitCapability, text: string, lang: string): (r: string)
    ensures cap.TranslitUnavailable? ==> r == ""
    ensures cap.TranslitAvailable? ==> r == cap.transliterate(text, SchemeFor(lang), Itrans)
  {
    match cap
    case TranslitUnavailable => ""
    case TranslitAvailable(transliterate) => transliterate(text, SchemeFor(lang), Itrans)
  }

  /** Codes that share a script romanize alike: the code matters only through its scheme. */
  lemma SameSchemeSameRomanization(cap: TranslitCapability, text: string, lang1: string, lang2: string)
    requires SchemeFor(lang1) == SchemeFor(lang2)
    ensures Romanize(cap, text, lang1) == Romanize(cap, text, lang2)
  {
  }

  /** The lossy default: an unknown code is read as Hindi. */
  lemma UnknownCodeReadAsHindi(cap: TranslitCapability, text: string, lang: string)
    requires lang !in LangToScheme
    ensures Romanize(cap, text, lang) == Romanize(cap, text, "hi")
  {
  }
}

=== FILE: wrappers.dfy ===
/** The optional-value and result datatypes shared by the model's modules. */
module Wrappers {

  /** A value that may be absent, as Python's `None`. */
  datatype Option<+T> = None | Some(value: T)

  /** The outcome of an operation that may fail with an error. */
  datatype Result<+R, +E> = Ok(value: R) | Err(error: E)
}
